=== FILE: README.md ===
# EduCenter enrollment and timetable core, in Dafny

EduCenter is a Flask application for a small teaching centre. It tracks students (`Talaba`), groups (`Guruh`), the applications students make to join groups (`GuruhAriza`) and each group's weekly lessons (`DarsJadvali`). Almost all of it is plain create/read/update/delete. Inside its routes sit three pieces of decision logic, and this project models and verifies them:

- **Access gate** (`access.dfy`). The decorators `login_required`, `admin_required` and `mentor_required` are pure functions of the session's user id and role.
- **Enrollment workflow** (`enrollment.dfy`). Submitting an application (`guruhga_yozilish`, POST), approving it (`ariza_qabul`) and rejecting it (`ariza_rad`, POST). An application is pending (`kutilmoqda`), approved (`qabul_qilindi`) or rejected (`qabul_qilinmadi`). The rules are:
  - a cap of five applications per (student, group) pair;
  - a student who already has a group cannot apply;
  - group capacity is checked both at submission and at approval.
- **Timetable generator** (`schedule.dfy`).
  - `jadval_add` expands a day pattern: `barcha` is the whole week, `juft` is Mon/Wed/Fri/Sun, `toq` is Tue/Thu/Sat, and `tanlash` uses the ticked days. It then creates one active (`faol`) slot per day that has none and reports how many it created.
  - `jadval_delete` and `jadval_restore` flip a slot's status between active and cancelled (`bekor_qilindi`).
  - `dars_jadvali` lists a group's active slots, stably sorted by weekday rank: Dushanba = 1 … Yakshanba = 7, any other name = 8.

The store (`store.dfy`) is an immutable value that holds four sequences: students, groups, applications and slots. A row's id is its position in its sequence. Each operation is a pure function from the store and the request's inputs to an outcome and a new store. `routes.dfy` puts each route body behind its decorator. It also proves that every route except restore keeps the store invariants:
- application foreign keys resolve;
- no group is over capacity;
- no (student, group) pair has more than five applications;
- each group has at most one active slot per weekday.

Inputs that come from outside become parameters:
- the session is a `Session(userId, role)` value;
- `datetime.utcnow()` is an opaque `now: nat`;
- form fields are `Option`s and strings;
- a time field is `Blank`, `Malformed` or `At(minute)`. This stands in for `strptime('%H:%M')`.

Some behaviours of the code are easy to misread; the model follows the code as written:
- `admin_required` and `mentor_required` send an anonymous caller to the home page, not the login page (app.py:113-115, 122-124).
- Submission does not look at the group's status `holat`. Only the GET listing filters active groups (app.py:587).
- Approval does not check whether the student already belongs to another group. It overwrites `guruh_id`, so one student can end up with two approved applications (`Enrollment.ApproveOverwritesMembership`, `Enrollment.TwoApprovalsForOneStudent`).
- Restore sets any slot active, whatever its status. It does not re-check the one-active-slot-per-day rule (`Schedule.RestoreMayDuplicate`, `Routes.RestoreCanBreakInv`).
- The empty-day-list check applies only to the pattern name `tanlash`. Any other unknown pattern name falls through to the ticked days, and an empty list then creates nothing and succeeds.

## Model

| member | source | states |
|---|---|---|
| Access.LoginRequired | app.py:101-108 | lets a caller through exactly when the session has a user id; otherwise it redirects to the login page |
| Access.AdminRequired | app.py:110-117 | lets a caller through exactly when a user id is present and the role is 'admin'; otherwise it redirects to the home page |
| Access.MentorRequired | app.py:119-126 | lets a caller through exactly when a user id is present and the role is 'admin' or 'mentor'; otherwise it redirects to the home page |
| Access.AccessMonotone | app.py:101-126 | admin access implies mentor access, and mentor access implies login access; an anonymous caller is refused by all three |
| Access.StudentOnlyLogsIn | app.py:101-126 | a signed-in 'talaba' passes `login_required` and is refused by the admin and mentor gates |
| Store.PairCount | app.py:553 | the number of applications of a (student, group) pair is the size of the set of ids of that pair's applications, whatever their status |
| Store.HasApproved | app.py:559-560 | whenever the pair holds an approved application, it also has at least one application on record; that an approval makes the test true, and that the test then refuses resubmission, is stated by `Enrollment.ApprovedPairCannotResubmit` |
| Store.StudentsIn | app.py:402 | the head-count of a group is zero exactly when no student's `guruh_id` is that group |
| Store.StudentsInUpdate | app.py:412 | reassigning one student changes each group's head-count only by that student leaving its old group and joining its new one |
| Store.PairCountAppend | app.py:553 | adding an application raises only its own (student, group) count, and by exactly one |
| Store.PairCountUpdate | app.py:405-415 | changing an application's status or note keeps every (student, group) count |
| Enrollment.FindStudent | app.py:535-538 | finds the first student profile owned by the signed-in user, or reports that none exists |
| Enrollment.Submit | app.py:540-584 | succeeds exactly when the profile and the group exist, the pair has fewer than 5 applications, none of them is approved, the student has no group and the group is below capacity. Each refusal is the one for the first failing check, in the source's order: no profile, no group chosen, unknown group, too many applications, already accepted, already in a group, group full. Every refusal leaves the store unchanged, and success appends one pending application and changes nothing else |
| Enrollment.SubmitCreatesOnePending | app.py:575-582 | a successful submission adds one undecided pending application owned by the caller and naming the chosen group, and keeps the old applications, students, groups and slots; a refusal changes nothing |
| Enrollment.EnrolledStudentCannotSubmit | app.py:564-567 | a student whose `guruh_id` is set can never submit successfully |
| Enrollment.SubmitKeepsApplicationCap | app.py:552-556 | submission keeps every (student, group) pair at or below 5 applications, including the pair it adds to |
| Enrollment.SubmitIgnoresGroupStatus | app.py:547-584 | the outcome of a submission does not depend on the group's `holat` |
| Enrollment.Approve | app.py:392-419 | an unknown id is not found, and an application that is not pending is reported as already decided; a pending one is rejected as full exactly when its group is at capacity and approved otherwise. Refusals change nothing. Other applications, groups and slots stay as they were, and approval keeps every group within capacity |
| Enrollment.ApproveKeepsCapacity | app.py:401-412 | moving a student into a group that has room keeps every group at or below its `max_talabalar` |
| Enrollment.ApproveDecides | app.py:401-415 | if the group is full, the row becomes rejected with note "Guruh to'lgan" and the decision stamp, every other field is kept, and no student moves. Otherwise the row becomes approved with note "Ariza qabul qilindi va talaba guruhga qo'shildi" and the stamp, every other field is kept, the student's group becomes the application's group with its other fields kept, and every other student is unchanged |
| Enrollment.ApproveMovesOneStudent | app.py:411-412 | an approval lowers the previous group's head-count by one, raises the new group's by one, and leaves every other group's head-count alone |
| Enrollment.ApprovedPairCannotResubmit | app.py:552-562 | after an application is approved, its (student, group) pair holds an approved application, and that student's later submission to the same group is refused as over the cap or as already accepted |
| Enrollment.ApproveDecidedIsFinal | app.py:397-399 | approving an application that is not pending reports it as already decided and changes nothing, not even its decision stamp |
| Enrollment.RejectDecidedIsFinal | app.py:426-428 | rejecting an application that is not pending reports it as already decided and changes nothing |
| Enrollment.IsSpace | app.py:432 | a character counts as whitespace exactly when its code point is one of the 29 that Python's `str.isspace()` accepts, listed one by one |
| Enrollment.IsBlank | app.py:432 | a note is blank exactly when `str.strip()`, modelled as `lstrip` followed by `rstrip`, reduces it to the empty string |
| Enrollment.StripEmpty | app.py:432 | `strip()` empties a string exactly when every character is whitespace |
| Enrollment.RejectNote | app.py:431-433 | the stored note is the given one, unless it is absent or consists only of whitespace (Python `str.isspace`), in which case it is 'Qabul qilinmadi' |
| Enrollment.Reject | app.py:421-438 | an unknown id is not found, and an application that is not pending is reported as already decided; a pending application is rejected. Refusals change nothing, and students, groups, slots and the other applications never change |
| Enrollment.RejectStoresNote | app.py:430-437 | rejecting a pending application changes only its status, decision stamp and note: the note is the given one, or the default when the given one is absent or blank. Student, group and submission stamp are kept |
| Enrollment.ApproveOverwritesMembership | app.py:411-415 | a student already in group 0 whose application to group 1 is approved ends up in group 1 |
| Enrollment.TwoApprovalsForOneStudent | app.py:401-415 | a student with no group applies to groups 0 and 1; both applications are approved, so one student holds two approved applications and ends up in group 1 |
| Enrollment.CapacityOneScenario | app.py:569-573 | with capacity 1: A submits and is approved; B's submission is then refused as group full, and the store is unchanged |
| Schedule.DayRank | app.py:609-616 | a weekday's rank is its position in the week, Dushanba first; any other name ranks 8 |
| Schedule.ExpandDays | app.py:650-658 | 'barcha' yields the seven days Dushanba to Yakshanba, 'juft' yields Dushanba, Chorshanba, Juma and Yakshanba, 'toq' yields Seshanba, Payshanba and Shanba, and any other pattern yields exactly the ticked days |
| Schedule.PatternsPartitionWeek | app.py:651-656 | the seven weekday names are distinct, and 'juft' and 'toq' split the week into two disjoint halves |
| Schedule.CreateSlots | app.py:660-677 | existing slots are kept. Each created slot is active, belongs to the group, carries the given times and room, and falls on a requested day that had no active slot. Afterwards every requested day has an active slot. One active slot per (group, day) is preserved |
| Schedule.HasActiveAppend | app.py:664-665 | appending a slot makes its own (group, day) active when the slot is active, and changes the answer for no other (group, day) |
| Schedule.OneActiveAppend | app.py:664-666 | adding an active slot on a day where its group has none keeps one active slot per (group, day) |
| Schedule.CreateSlotsCount | app.py:661-677 | the reported count equals the number of distinct requested days on which the group had no active slot |
| Schedule.AddSlots | app.py:624-681 | each failure is the one for the first failing check, in the source's order: unknown group, missing pattern or time, explicit pattern with no day ticked, malformed time, start not before end. Success happens exactly when all checks pass. Failures change nothing. Success only appends slots and reports their number. Each new slot is an active slot of the group on a requested day, holding the submitted start, end and room, with start before end. Every requested day is covered, and one active slot per (group, day) is kept |
| Schedule.AddAllTwice | app.py:651-677 | 'barcha' on a group with no active weekday slot creates exactly 7 slots; run again it creates 0 and changes nothing |
| Schedule.OddAndEvenDays | app.py:653-656 | 'toq' creates only Seshanba, Payshanba and Shanba slots; 'juft' creates only Dushanba, Chorshanba, Juma and Yakshanba slots |
| Schedule.OddPatternCoversOddDays | app.py:655-677 | on a group with no active weekday slot, 'toq' creates exactly 3 slots and leaves Seshanba, Payshanba and Shanba each with an active slot |
| Schedule.EvenPatternCoversEvenDays | app.py:653-677 | on a group with no active weekday slot, 'juft' creates exactly 4 slots and leaves Dushanba, Chorshanba, Juma and Yakshanba each with an active slot |
| Schedule.EmptyPickFails | app.py:636-638 | the explicit pattern with no day ticked fails and changes nothing |
| Schedule.Cancel | app.py:693-703 | an unknown id is not found and changes nothing; otherwise only that slot's status becomes cancelled, its group is reported, and one active slot per day is kept |
| Schedule.Restore | app.py:705-715 | an unknown id is not found and changes nothing; otherwise only that slot's status becomes active, whatever it was, and its group is reported |
| Schedule.ActiveRows | app.py:615 | holds exactly the active slots of the group, each with its id, in id order |
| Schedule.InsertSorted | app.py:616 | inserting into a weekday-sorted list keeps it sorted |
| Schedule.Insert | app.py:616 | insertion adds exactly the inserted row: the result is a permutation of the old rows plus that row |
| Schedule.InsertStable | app.py:616 | insertion places a row after every row of the same weekday rank |
| Schedule.SortByDay | app.py:616 | the sort is ordered by weekday rank, is a permutation of its input, and keeps rows of equal rank in their input order |
| Schedule.ListSchedule | app.py:603-618 | lists exactly the group's active slots, ordered by weekday rank, with rows of equal rank in creation order; an unknown group is not found |
| Schedule.CancelHidesRestoreShows | app.py:699-712 | after a slot is cancelled it is absent from its group's listing; after it is restored it is listed again |
| Schedule.RestoreMayDuplicate | app.py:711-712 | restoring a cancelled Monday slot next to an active Monday slot leaves two active Monday slots in one group |
| Routes.SubmitRoute | app.py:532-534 | an anonymous caller is sent to the login page and changes nothing; a signed-in caller submits as themself |
| Routes.ApproveRoute | app.py:392-394 | anyone who is not a signed-in admin is sent to the home page and changes nothing; a signed-in admin gets exactly the operation's outcome and new store |
| Routes.RejectRoute | app.py:421-423 | anyone who is not a signed-in admin is sent to the home page and changes nothing; a signed-in admin gets exactly the operation's outcome and new store |
| Routes.AddSlotsRoute | app.py:620-622 | anyone who is not a signed-in admin is sent to the home page and changes nothing; a signed-in admin gets exactly the operation's outcome and new store |
| Routes.CancelRoute | app.py:693-695 | anyone who is not a signed-in admin is sent to the home page and changes nothing; a signed-in admin gets exactly the operation's outcome and new store |
| Routes.RestoreRoute | app.py:705-707 | anyone who is not a signed-in admin is sent to the home page and changes nothing; a signed-in admin gets exactly the operation's outcome and new store |
| Routes.ScheduleRoute | app.py:603-605 | an anonymous caller is sent to the login page; a signed-in caller receives exactly the group's listing |
| Routes.NonAdminChangesNothing | app.py:110-117 | no admin route changes the store for a caller who is not a signed-in admin |
| Routes.SubmitKeepsInv | app.py:552-582 | submission keeps foreign keys, capacities, the per-pair cap and one active slot per day |
| Routes.ApproveKeepsInv | app.py:401-417 | approval keeps foreign keys, capacities, the per-pair cap and one active slot per day |
| Routes.RejectKeepsInv | app.py:430-438 | rejection keeps foreign keys, capacities, the per-pair cap and one active slot per day |
| Routes.AddSlotsKeepsInv | app.py:660-679 | adding slots keeps all the store invariants |
| Routes.CancelKeepsInv | app.py:699-701 | cancelling a slot keeps all the store invariants |
| Routes.RestoreCanBreakInv | app.py:711-713 | some store satisfies the invariants and restoring one of its slots breaks them |

## Left out

- Flask plumbing is not modelled: routing, `render_template`, flash messages and redirects after a route body. The GET branches of `guruhga_yozilish`, `ariza_rad` and `jadval_add`, which only render forms, are left out too. The session is a `Session` value, and the decorators' redirects are `Decision` values.
- Query order is an assumption. SQLAlchemy's `.all()` and `.first()` have no ORDER BY, so the model takes creation (id) order. Row ids are positions in the sequences, starting at 0. SQLite ids start at 1, so `if talaba.guruh_id:` (app.py:565) is modelled as "the group is set". The Python-falsy id 0 never occurs in the real database.
- Autoflush within `jadval_add` is modelled by its effect, not by its mechanics. The day loop sees the slots it has already added, so a day ticked twice gets one slot.
- Time parsing is abstracted. `strptime` (app.py:642-643) is replaced by the `TimeField` input, and a malformed time is the `BadTimeFormat` outcome. The catch-all `except Exception` (app.py:686) is left out because the model's store operations cannot fail.
- Timestamps are an opaque `now` parameter. The slot creation stamp `yaratilgan_sana` is not recorded.
- A group whose `max_talabalar` is NULL is left out. Comparing with it raises a TypeError in Python 3, and the model's capacity is always an integer. Capacities written from the group form as strings are taken as already converted by the database.
- Concurrency is left out. Two approvals racing for the last place are a persistence-layer question, and each modelled operation is atomic.
- Dangling references are excluded by a precondition. Approval requires that application foreign keys resolve (`WellFormed`), because the source dereferences `ariza.guruh` and `ariza.talaba`.
- Password hashing, login and registration are not modelled. They are library calls and plain CRUD. So are subject, group, mentor and student create/edit/delete, dashboards and detail views, and the `init_db`/`__main__` admin seeding (app.py:719-760), which is one-off I/O.

=== FILE: access.dfy ===
/**
 * The three route decorators `login_required`, `admin_required` and
 * `mentor_required`, as pure functions of the caller's session.
 */
module Access {
  import opened Wrappers

  /** The part of the session the decorators read: the `user_id` key and the `role` value. */
  datatype Session = Session(userId: Option<nat>, role: Option<string>)

  /** What a decorator does: run the route, or redirect to the login page or to the home page. */
  datatype Decision = Allow | ToLogin | ToIndex

  const AdminRole: string := "admin"
  const MentorRole: string := "mentor"
  const StudentRole: string := "talaba"

  /** Any signed-in user passes; an anonymous caller is sent to the login page. */
  function LoginRequired(s: Session): (d: Decision)
    ensures d == Allow <==> s.userId.Some?
    ensures d != Allow ==> d == ToLogin
  {
    if s.userId.None? then ToLogin else Allow
  }

  /** Only a signed-in admin passes; everyone else, anonymous included, goes to the home page. */
  function AdminRequired(s: Session): (d: Decision)
    ensures d == Allow <==> s.userId.Some? && s.role == Some(AdminRole)
    ensures d != Allow ==> d == ToIndex
  {
    if s.userId.None? || s.role != Some(AdminRole) then ToIndex else Allow
  }

  /** A signed-in admin or mentor passes; everyone else goes to the home page. */
  function MentorRequired(s: Session): (d: Decision)
    ensures d == Allow <==> s.userId.Some? && (s.role == Some(AdminRole) || s.role == Some(MentorRole))
    ensures d != Allow ==> d == ToIndex
  {
    if s.userId.None? || !(s.role.Some? && s.role.value in [AdminRole, MentorRole]) then ToIndex else Allow
  }

  /**
   * The gates are nested: whoever passes `admin_required` passes `mentor_required`,
   * whoever passes `mentor_required` passes `login_required`, and an anonymous
   * caller passes none of them.
   */
  lemma AccessMonotone(s: Session)
    ensures AdminRequired(s) == Allow ==> MentorRequired(s) == Allow
    ensures MentorRequired(s) == Allow ==> LoginRequired(s) == Allow
    ensures s.userId.None? ==>
      LoginRequired(s) == ToLogin && MentorRequired(s) == ToIndex && AdminRequired(s) == ToIndex
  {
  }

  /** A signed-in student is let through `login_required` and turned away by the other two. */
  lemma StudentOnlyLogsIn(uid: nat)
    ensures LoginRequired(Session(Some(uid), Some(StudentRole))) == Allow
    ensures MentorRequired(Session(Some(uid), Some(StudentRole))) == ToIndex
    ensures AdminRequired(Session(Some(uid), Some(StudentRole))) == ToIndex
  {
  }
}

=== FILE: enrollment.dfy ===
/**
 * The enrollment workflow: a student submits an application to a group
 * (`guruhga_yozilish`, POST), and an admin approves (`ariza_qabul`) or rejects
 * (`ariza_rad`, POST) it. Each operation returns its outcome and the new store;
 * every failing outcome leaves the store as it was.
 */
module Enrollment {
  import opened Wrappers
  import opened Store

  /** The note stored when approval finds the group full. */
  const FullNote: string := "Guruh to'lgan"
  /** The note stored on a successful approval. */
  const ApprovedNote: string := "Ariza qabul qilindi va talaba guruhga qo'shildi"
  /** The note stored on a rejection whose given note is absent or blank. */
  const DefaultRejectNote: string := "Qabul qilinmadi"

  datatype SubmitOutcome =
    | Submitted(id: ApplicationId)
    | ProfileMissing        // the signed-in user has no student profile
    | GroupNotChosen        // the `guruh_id` field is empty
    | GroupNotFound
    | TooManyApplications   // already `MaxApplications` applications to this group
    | AlreadyAccepted       // an application to this group was approved
    | AlreadyInGroup        // the student's `guruh_id` is set
    | GroupFull

  datatype DecisionOutcome =
    | Accepted
    | RejectedFull     // approval found the group full and rejected instead
    | RejectedByAdmin
    | AlreadyDecided
    | ApplicationNotFound

  /** The first student profile owned by user `uid` (`filter_by(user_id=...).first()`). */
  function FindStudent(students: seq<Student>, uid: nat): (r: Option<StudentId>)
    ensures r.Some? ==> r.value < |students| && students[r.value].userId == uid
    ensures r.Some? ==> forall j :: 0 <= j < r.value ==> students[j].userId != uid
    ensures r.None? <==> forall j :: 0 <= j < |students| ==> students[j].userId != uid
  {
    if students == [] then None
    else if students[0].userId == uid then Some(0)
    else
      match FindStudent(students[1..], uid)
      case None => None
      case Some(k) => Some(k + 1)
  }

  /** All of the conditions under which submission creates an application. */
  predicate MaySubmit(st: Store, s: StudentId, g: GroupId)
    requires s < |st.students| && g < |st.groups|
  {
    && PairCount(st.applications, s, g) < MaxApplications
    && !HasApproved(st.applications, s, g)
    && st.students[s].group.None?
    && StudentsIn(st.students, g) < st.groups[g].capacity
  }

  /**
   * The POST branch of `guruhga_yozilish` for the user `uid`, choosing group
   * `chosen` (None when the form field is empty). The checks run in the
   * source's order; the group's own status is not consulted.
   */
  function Submit(st: Store, uid: nat, chosen: Option<GroupId>, now: Stamp): (r: (SubmitOutcome, Store))
    ensures r.0.Submitted? <==>
      (FindStudent(st.students, uid).Some? && chosen.Some? && chosen.value < |st.groups|
       && MaySubmit(st, FindStudent(st.students, uid).value, chosen.value))
    ensures !r.0.Submitted? ==> r.1 == st
    ensures FindStudent(st.students, uid).None? ==> r.0 == ProfileMissing
    ensures FindStudent(st.students, uid).Some? && chosen.None? ==> r.0 == GroupNotChosen
    ensures FindStudent(st.students, uid).Some? && chosen.Some? && chosen.value >= |st.groups| ==> r.0 == GroupNotFound
    ensures FindStudent(st.students, uid).Some? && chosen.Some? && chosen.value < |st.groups| ==>
      var s, g := FindStudent(st.students, uid).value, chosen.value;
      && (PairCount(st.applications, s, g) >= MaxApplications ==> r.0 == TooManyApplications)
      && (PairCount(st.applications, s, g) < MaxApplications && HasApproved(st.applications, s, g)
          ==> r.0 == AlreadyAccepted)
      && ((PairCount(st.applications, s, g) < MaxApplications && !HasApproved(st.applications, s, g)
           && st.students[s].group.Some?) ==> r.0 == AlreadyInGroup)
      && ((PairCount(st.applications, s, g) < MaxApplications && !HasApproved(st.applications, s, g)
           && st.students[s].group.None? && StudentsIn(st.students, g) >= st.groups[g].capacity) ==> r.0 == GroupFull)
    ensures r.0.Submitted? ==>
      && r.0.id == |st.applications|
      && r.1 == st.(applications := st.applications
           + [Application(FindStudent(st.students, uid).value, chosen.value, Pending, now, None, None)])
  {
    match FindStudent(st.students, uid)
    case None => (ProfileMissing, st)
    case Some(s) =>
      if chosen.None? then (GroupNotChosen, st)
      else
        var g := chosen.value;
        if g >= |st.groups| then (GroupNotFound, st)
        else if PairCount(st.applications, s, g) >= MaxApplications then (TooManyApplications, st)
        else if HasApproved(st.applications, s, g) then (AlreadyAccepted, st)
        else if st.students[s].group.Some? then (AlreadyInGroup, st)
        else if StudentsIn(st.students, g) >= st.groups[g].capacity then (GroupFull, st)
        else
          (Submitted(|st.applications|),
           st.(applications := st.applications + [Application(s, g, Pending, now, None, None)]))
  }

  /**
   * `ariza_qabul`: a pending application is approved when its group has room,
   * moving the student into the group, and is rejected with `FullNote` when the
   * group is full. The student's previous group is not consulted.
   */
  function Approve(st: Store, id: ApplicationId, now: Stamp): (r: (DecisionOutcome, Store))
    requires WellFormed(st)
    ensures r.1.groups == st.groups && r.1.slots == st.slots
    ensures |r.1.applications| == |st.applications| && |r.1.students| == |st.students|
    ensures (id < |st.applications| && st.applications[id].status == Pending)
        <==> r.0 in {Accepted, RejectedFull}
    ensures r.0 !in {Accepted, RejectedFull} ==> r.1 == st
    ensures id >= |st.applications| ==> r.0 == ApplicationNotFound
    ensures id < |st.applications| && st.applications[id].status != Pending ==> r.0 == AlreadyDecided
    ensures id < |st.applications| && st.applications[id].status == Pending ==>
      (r.0 == RejectedFull <==> StudentsIn(st.students, st.applications[id].group)
                                 >= st.groups[st.applications[id].group].capacity)
    ensures forall j :: 0 <= j < |st.applications| && j != id ==> r.1.applications[j] == st.applications[j]
    ensures CapacityRespected(st) ==> CapacityRespected(r.1)
  {
    if id >= |st.applications| then (ApplicationNotFound, st)
    else
      var a := st.applications[id];
      if a.status != Pending then (AlreadyDecided, st)
      else if StudentsIn(st.students, a.group) >= st.groups[a.group].capacity then
        (RejectedFull,
         st.(applications := st.applications[id := a.(status := Rejected, decidedAt := Some(now), note := Some(FullNote))]))
      else
        var students' := st.students[a.student := st.students[a.student].(group := Some(a.group))];
        ApproveKeepsCapacity(st, a.student, a.group);
        (Accepted,
         st.(students := students',
             applications := st.applications[id := a.(status := Approved, decidedAt := Some(now), note := Some(ApprovedNote))]))
  }

  /** Moving student `s` into group `g` while `g` has room keeps every group within capacity. */
  lemma ApproveKeepsCapacity(st: Store, s: StudentId, g: GroupId)
    requires s < |st.students| && g < |st.groups|
    requires StudentsIn(st.students, g) < st.groups[g].capacity
    ensures CapacityRespected(st) ==>
      CapacityRespected(st.(students := st.students[s := st.students[s].(group := Some(g))]))
  {
    var students' := st.students[s := st.students[s].(group := Some(g))];
    forall h | 0 <= h < |st.groups|
      ensures StudentsIn(students', h) <= StudentsIn(st.students, h) + (if h == g then 1 else 0)
    {
      StudentsInUpdate(st.students, s, st.students[s].(group := Some(g)), h);
    }
  }

  /** The code points Python's `str.isspace()` accepts, listed one by one: 29 in all. */
  const PythonWhitespace: set<int> := {
    9, 10, 11, 12, 13, 28, 29, 30, 31, 32, 0x85, 0xA0, 0x1680,
    0x2000, 0x2001, 0x2002, 0x2003, 0x2004, 0x2005, 0x2006, 0x2007, 0x2008, 0x2009, 0x200A,
    0x2028, 0x2029, 0x202F, 0x205F, 0x3000}

  /** The characters Python's `str.isspace()` accepts, as code-point ranges. */
  function IsSpace(c: char): (b: bool)
    ensures b <==> c as int in PythonWhitespace
  {
    var n := c as int;
    || 9 <= n <= 13 || 28 <= n <= 32 || n == 0x85 || n == 0xA0 || n == 0x1680
    || 0x2000 <= n <= 0x200A || n == 0x2028 || n == 0x2029 || n == 0x202F || n == 0x205F || n == 0x3000
  }

  /** `str.lstrip()`: drops the leading whitespace. */
  function TrimStart(s: string): string {
    if s != [] && IsSpace(s[0]) then TrimStart(s[1..]) else s
  }

  /** `str.rstrip()`: drops the trailing whitespace. */
  function TrimEnd(s: string): string {
    if s != [] && IsSpace(s[|s| - 1]) then TrimEnd(s[..|s| - 1]) else s
  }

  /** `str.strip()`. */
  function Strip(s: string): string {
    TrimEnd(TrimStart(s))
  }

  /** A note made only of whitespace: exactly the notes `str.strip()` empties. */
  function IsBlank(note: string): (b: bool)
    ensures b <==> Strip(note) == []
  {
    StripEmpty(note);
    forall i :: 0 <= i < |note| ==> IsSpace(note[i])
  }

  /** `lstrip()` empties a string exactly when every character is whitespace. */
  lemma {:induction false} TrimStartEmpty(s: string)
    ensures TrimStart(s) == [] <==> forall i :: 0 <= i < |s| ==> IsSpace(s[i])
    ensures TrimStart(s) != [] ==> !IsSpace(TrimStart(s)[0])
  {
    if s != [] && IsSpace(s[0]) {
      TrimStartEmpty(s[1..]);
      assert forall i :: 1 <= i < |s| ==> s[i] == s[1..][i - 1];
    }
  }

  /** `strip()` empties a string exactly when every character is whitespace. */
  lemma StripEmpty(s: string)
    ensures Strip(s) == [] <==> forall i :: 0 <= i < |s| ==> IsSpace(s[i])
  {
    TrimStartEmpty(s);
    if TrimStart(s) != [] {
      TrimEndKeepsHead(TrimStart(s));
    }
  }

  /** `rstrip()` never removes a leading character that is not whitespace. */
  lemma {:induction false} TrimEndKeepsHead(s: string)
    requires s != [] && !IsSpace(s[0])
    ensures TrimEnd(s) != []
  {
    if IsSpace(s[|s| - 1]) {
      TrimEndKeepsHead(s[..|s| - 1]);
    }
  }

  /** The note a rejection stores: the given one, unless it is absent or blank. */
  function RejectNote(given: Option<string>): (n: string)
    ensures given.Some? && !IsBlank(given.value) ==> n == given.value
    ensures given.None? || IsBlank(given.value) ==> n == DefaultRejectNote
  {
    if given.None? || IsBlank(given.value) then DefaultRejectNote else given.value
  }

  /** `ariza_rad`, POST: a pending application becomes rejected with the chosen note. */
  function Reject(st: Store, id: ApplicationId, given: Option<string>, now: Stamp): (r: (DecisionOutcome, Store))
    ensures r.1.students == st.students && r.1.groups == st.groups && r.1.slots == st.slots
    ensures |r.1.applications| == |st.applications|
    ensures (id < |st.applications| && st.applications[id].status == Pending) <==> r.0 == RejectedByAdmin
    ensures r.0 != RejectedByAdmin ==> r.1 == st
    ensures id >= |st.applications| ==> r.0 == ApplicationNotFound
    ensures id < |st.applications| && st.applications[id].status != Pending ==> r.0 == AlreadyDecided
    ensures forall j :: 0 <= j < |st.applications| && j != id ==> r.1.applications[j] == st.applications[j]
  {
    if id >= |st.applications| then (ApplicationNotFound, st)
    else
      var a := st.applications[id];
      if a.status != Pending then (AlreadyDecided, st)
      else
        (RejectedByAdmin,
         st.(applications := st.applications[id := a.(status := Rejected, decidedAt := Some(now), note := Some(RejectNote(given)))]))
  }

  // ---------------------------------------------------------------------------
  // Properties of the workflow

  /**
   * A successful submission adds exactly one pending application, owned by the
   * signed-in student and naming the chosen group, and touches nothing else;
   * every refusal leaves the store unchanged.
   */
  lemma SubmitCreatesOnePending(st: Store, uid: nat, chosen: Option<GroupId>, now: Stamp)
    ensures var (o, st') := Submit(st, uid, chosen, now);
      if o.Submitted? then
        && |st'.applications| == |st.applications| + 1
        && st'.applications[..|st.applications|] == st.applications
        && st'.applications[o.id].status == Pending
        && st'.applications[o.id].decidedAt.None?
        && st'.students[st'.applications[o.id].student].userId == uid
        && st'.applications[o.id].group == chosen.value
        && st'.students == st.students && st'.groups == st.groups && st'.slots == st.slots
      else st' == st
  {
  }

  /** A student who already belongs to a group can never submit, whatever the group chosen. */
  lemma EnrolledStudentCannotSubmit(st: Store, uid: nat, chosen: Option<GroupId>, now: Stamp)
    requires FindStudent(st.students, uid).Some?
    requires st.students[FindStudent(st.students, uid).value].group.Some?
    ensures !Submit(st, uid, chosen, now).0.Submitted?
    ensures Submit(st, uid, chosen, now).1 == st
  {
  }

  /**
   * Submission never takes a (student, group) pair above `MaxApplications`
   * applications: the cap is an invariant, and a successful submission leaves
   * its own pair at most at the cap.
   */
  lemma SubmitKeepsApplicationCap(st: Store, uid: nat, chosen: Option<GroupId>, now: Stamp)
    ensures ApplicationCapRespected(st) ==> ApplicationCapRespected(Submit(st, uid, chosen, now).1)
    ensures var (o, st') := Submit(st, uid, chosen, now);
      o.Submitted? ==>
        PairCount(st'.applications, st'.applications[o.id].student, st'.applications[o.id].group) <= MaxApplications
  {
  }

  /** The group's status (`holat`) plays no part in submission. */
  lemma SubmitIgnoresGroupStatus(st: Store, uid: nat, g: GroupId, status: GroupStatus, now: Stamp)
    requires g < |st.groups|
    ensures var st2 := st.(groups := st.groups[g := st.groups[g].(status := status)]);
      Submit(st2, uid, Some(g), now).0 == Submit(st, uid, Some(g), now).0
  {
  }

  /**
   * Approving a pending application decides it: when the group is at capacity
   * the application is rejected with `FullNote` and no student moves; otherwise
   * it is approved and its student's group becomes the application's group.
   */
  lemma ApproveDecides(st: Store, id: ApplicationId, now: Stamp)
    requires WellFormed(st)
    requires id < |st.applications| && st.applications[id].status == Pending
    ensures var (o, st') := Approve(st, id, now);
      var a := st.applications[id];
      && (StudentsIn(st.students, a.group) >= st.groups[a.group].capacity ==>
            && o == RejectedFull
            && st'.applications[id] == a.(status := Rejected, decidedAt := Some(now), note := Some(FullNote))
            && st'.students == st.students)
      && (StudentsIn(st.students, a.group) < st.groups[a.group].capacity ==>
            && o == Accepted
            && st'.applications[id] == a.(status := Approved, decidedAt := Some(now), note := Some(ApprovedNote))
            && st'.students[a.student] == st.students[a.student].(group := Some(a.group))
            && forall k :: 0 <= k < |st.students| && k != a.student ==> st'.students[k] == st.students[k])
  {
  }

  /**
   * An approval moves one student: the head-count of the student's previous
   * group drops by one, that of the application's group rises by one, and every
   * other group's head-count stays as it was.
   */
  lemma ApproveMovesOneStudent(st: Store, id: ApplicationId, now: Stamp, h: GroupId)
    requires WellFormed(st)
    requires Approve(st, id, now).0 == Accepted
    ensures var a := st.applications[id];
      var prev := st.students[a.student].group;
      var st' := Approve(st, id, now).1;
      StudentsIn(st'.students, h)
        == StudentsIn(st.students, h)
           - (if prev == Some(h) then 1 else 0)
           + (if h == a.group then 1 else 0)
  {
    var a := st.applications[id];
    StudentsInUpdate(st.students, a.student, st.students[a.student].(group := Some(a.group)), h);
  }

  /**
   * Once an application is approved, its (student, group) pair holds an
   * approved application, and the same student can no longer submit to that
   * group: the submission is refused as over the cap or as already accepted.
   */
  lemma ApprovedPairCannotResubmit(st: Store, id: ApplicationId, now: Stamp, uid: nat, later: Stamp)
    requires WellFormed(st)
    requires Approve(st, id, now).0 == Accepted
    ensures var a := st.applications[id];
      var st' := Approve(st, id, now).1;
      && HasApproved(st'.applications, a.student, a.group)
      && (FindStudent(st'.students, uid) == Some(a.student) ==>
            Submit(st', uid, Some(a.group), later).0 in {TooManyApplications, AlreadyAccepted})
  {
    assert Approve(st, id, now).1.applications[id].status == Approved;
  }

  /** Approving an application that is no longer pending changes nothing and reports it as decided. */
  lemma ApproveDecidedIsFinal(st: Store, id: ApplicationId, now: Stamp)
    requires WellFormed(st)
    requires id < |st.applications| && st.applications[id].status != Pending
    ensures Approve(st, id, now) == (AlreadyDecided, st)
  {
  }

  /** Rejecting an application that is no longer pending changes nothing and reports it as decided. */
  lemma RejectDecidedIsFinal(st: Store, id: ApplicationId, given: Option<string>, now: Stamp)
    requires id < |st.applications| && st.applications[id].status != Pending
    ensures Reject(st, id, given, now) == (AlreadyDecided, st)
  {
  }

  /**
   * Rejecting a pending application marks it rejected, stamps it, and stores the
   * given note unless that note is absent or only whitespace, in which case the
   * default note is stored.
   */
  lemma RejectStoresNote(st: Store, id: ApplicationId, given: Option<string>, now: Stamp)
    requires id < |st.applications| && st.applications[id].status == Pending
    ensures var st' := Reject(st, id, given, now).1;
      && st'.applications[id]
         == st.applications[id].(status := Rejected, decidedAt := Some(now), note := Some(RejectNote(given)))
      && (given.Some? && !IsBlank(given.value) ==> st'.applications[id].note == given)
      && (given.None? || IsBlank(given.value) ==> st'.applications[id].note == Some(DefaultRejectNote))
  {
  }

  /**
   * Approval does not look at the student's current group: a student already in
   * group 0 whose pending application to group 1 is approved ends up in group 1,
   * and the application is recorded as approved.
   */
  lemma ApproveOverwritesMembership()
    ensures var st := Store([Student(7, Some(0))], [Group(15, GroupActive), Group(15, GroupActive)],
                            [Application(0, 1, Pending, 0, None, None)], []);
      var (o, st') := Approve(st, 0, 1);
      o == Accepted && st'.students[0].group == Some(1) && st'.applications[0].status == Approved
  {
  }

  /**
   * Because approval overwrites the student's group, one student can hold two
   * approved applications: a student with no group applies to groups 0 and 1,
   * and both applications are approved, leaving the student in group 1.
   */
  lemma TwoApprovalsForOneStudent()
    ensures var st0 := Store([Student(7, None)], [Group(15, GroupActive), Group(15, GroupActive)], [], []);
      var (o1, st1) := Submit(st0, 7, Some(0), 1);
      var (o2, st2) := Submit(st1, 7, Some(1), 2);
      var (o3, st3) := Approve(st2, 0, 3);
      var (o4, st4) := Approve(st3, 1, 4);
      && o1 == Submitted(0) && o2 == Submitted(1) && o3 == Accepted && o4 == Accepted
      && st4.applications[0].status == Approved && st4.applications[1].status == Approved
      && st4.applications[0].student == st4.applications[1].student
      && st4.students[0].group == Some(1)
  {
    var st0 := Store([Student(7, None)], [Group(15, GroupActive), Group(15, GroupActive)], [], []);
    var a0 := Application(0, 0, Pending, 1, None, None);
    var a1 := Application(0, 1, Pending, 2, None, None);
    var st1 := st0.(applications := [a0]);
    assert Submit(st0, 7, Some(0), 1) == (Submitted(0), st1) by {
      assert FindStudent(st0.students, 7) == Some(0);
      assert StudentsIn(st0.students, 0) == 0;
      assert PairCount([], 0, 0) == 0 && !HasApproved([], 0, 0);
      assert Submit(st0, 7, Some(0), 1).1.applications == [a0];
    }
    var st2 := st1.(applications := [a0, a1]);
    assert Submit(st1, 7, Some(1), 2) == (Submitted(1), st2) by {
      assert FindStudent(st1.students, 7) == Some(0);
      assert StudentsIn(st1.students, 1) == 0;
      assert [a0][..0] == [];
      assert PairCount(st1.applications, 0, 1) == 0 && !HasApproved(st1.applications, 0, 1);
      assert Submit(st1, 7, Some(1), 2).1.applications == [a0, a1];
    }
    var st3 := st2.(students := [Student(7, Some(0))],
                    applications := [a0.(status := Approved, decidedAt := Some(3), note := Some(ApprovedNote)), a1]);
    assert Approve(st2, 0, 3) == (Accepted, st3) by {
      assert StudentsIn(st2.students, 0) == 0;
      assert Approve(st2, 0, 3).1.students == st3.students;
      assert Approve(st2, 0, 3).1.applications == st3.applications;
    }
    var st4 := st3.(students := [Student(7, Some(1))],
                    applications := [st3.applications[0], a1.(status := Approved, decidedAt := Some(4), note := Some(ApprovedNote))]);
    assert Approve(st3, 1, 4) == (Accepted, st4) by {
      assert StudentsIn(st3.students, 1) == 0;
      assert Approve(st3, 1, 4).1.students == st4.students;
      assert Approve(st3, 1, 4).1.applications == st4.applications;
    }
  }

  /**
   * A group of capacity one: student A (user 1) submits and is approved; then
   * student B (user 2) is refused at submission because the group is full.
   */
  lemma CapacityOneScenario()
    ensures var st0 := Store([Student(1, None), Student(2, None)], [Group(1, GroupActive)], [], []);
      var (o1, st1) := Submit(st0, 1, Some(0), 10);
      var (o2, st2) := Approve(st1, 0, 11);
      var (o3, st3) := Submit(st2, 2, Some(0), 12);
      && o1 == Submitted(0) && o2 == Accepted && st2.students[0].group == Some(0)
      && o3 == GroupFull && st3 == st2
  {
  }
}

=== FILE: routes.dfy ===
/**
 * The routes as the application wires them: each decorator guards its route
 * body, and the store invariants are kept by every route except restore.
 */
module Routes {
  import opened Wrappers
  import opened Store
  import opened Access
  import opened Enrollment
  import opened Schedule

  /** A route either redirects at its decorator or runs its body to an outcome. */
  datatype Response<T> = Denied(redirect: Decision) | Done(outcome: T)

  /** `guruhga_yozilish`, POST, behind `login_required`; the student is the signed-in user's profile. */
  function SubmitRoute(sess: Session, st: Store, chosen: Option<GroupId>, now: Stamp): (r: (Response<SubmitOutcome>, Store))
    ensures r.0.Denied? <==> sess.userId.None?
    ensures r.0.Denied? ==> r == (Denied(ToLogin), st)
    ensures r.0.Done? ==> r == (Done(Submit(st, sess.userId.value, chosen, now).0), Submit(st, sess.userId.value, chosen, now).1)
  {
    var d := LoginRequired(sess);
    if d != Allow then (Denied(d), st)
    else
      var (o, st') := Submit(st, sess.userId.value, chosen, now);
      (Done(o), st')
  }

  /** `ariza_qabul`, behind `admin_required`. */
  function ApproveRoute(sess: Session, st: Store, id: ApplicationId, now: Stamp): (r: (Response<DecisionOutcome>, Store))
    requires WellFormed(st)
    ensures r.0.Denied? <==> AdminRequired(sess) != Allow
    ensures r.0.Denied? ==> r == (Denied(ToIndex), st)
    ensures r.0.Done? ==> r == (Done(Approve(st, id, now).0), Approve(st, id, now).1)
  {
    var d := AdminRequired(sess);
    if d != Allow then (Denied(d), st)
    else
      var (o, st') := Approve(st, id, now);
      (Done(o), st')
  }

  /** `ariza_rad`, POST, behind `admin_required`. */
  function RejectRoute(sess: Session, st: Store, id: ApplicationId, note: Option<string>, now: Stamp)
    : (r: (Response<DecisionOutcome>, Store))
    ensures r.0.Denied? <==> AdminRequired(sess) != Allow
    ensures r.0.Denied? ==> r == (Denied(ToIndex), st)
    ensures r.0.Done? ==> r == (Done(Reject(st, id, note, now).0), Reject(st, id, note, now).1)
  {
    var d := AdminRequired(sess);
    if d != Allow then (Denied(d), st)
    else
      var (o, st') := Reject(st, id, note, now);
      (Done(o), st')
  }

  /** `jadval_add`, POST, behind `admin_required`. */
  function AddSlotsRoute(sess: Session, st: Store, g: GroupId, pattern: string, chosen: seq<string>,
                         start: TimeField, end: TimeField, room: Option<string>): (r: (Response<AddOutcome>, Store))
    ensures r.0.Denied? <==> AdminRequired(sess) != Allow
    ensures r.0.Denied? ==> r == (Denied(ToIndex), st)
    ensures r.0.Done? ==> r == (Done(AddSlots(st, g, pattern, chosen, start, end, room).0),
                                 AddSlots(st, g, pattern, chosen, start, end, room).1)
  {
    var d := AdminRequired(sess);
    if d != Allow then (Denied(d), st)
    else
      var (o, st') := AddSlots(st, g, pattern, chosen, start, end, room);
      (Done(o), st')
  }

  /** `jadval_delete`, behind `admin_required`. */
  function CancelRoute(sess: Session, st: Store, id: SlotId): (r: (Response<Option<GroupId>>, Store))
    ensures r.0.Denied? <==> AdminRequired(sess) != Allow
    ensures r.0.Denied? ==> r == (Denied(ToIndex), st)
    ensures r.0.Done? ==> r == (Done(Cancel(st, id).0), Cancel(st, id).1)
  {
    var d := AdminRequired(sess);
    if d != Allow then (Denied(d), st)
    else
      var (o, st') := Cancel(st, id);
      (Done(o), st')
  }

  /** `jadval_restore`, behind `admin_required`. */
  function RestoreRoute(sess: Session, st: Store, id: SlotId): (r: (Response<Option<GroupId>>, Store))
    ensures r.0.Denied? <==> AdminRequired(sess) != Allow
    ensures r.0.Denied? ==> r == (Denied(ToIndex), st)
    ensures r.0.Done? ==> r == (Done(Restore(st, id).0), Restore(st, id).1)
  {
    var d := AdminRequired(sess);
    if d != Allow then (Denied(d), st)
    else
      var (o, st') := Restore(st, id);
      (Done(o), st')
  }

  /** `dars_jadvali`, behind `login_required`: reads the store and never changes it. */
  function ScheduleRoute(sess: Session, st: Store, g: GroupId): (r: Response<Option<seq<Row>>>)
    ensures r.Denied? <==> sess.userId.None?
    ensures r.Denied? ==> r.redirect == ToLogin
    ensures r.Done? ==> r.outcome == ListSchedule(st, g)
  {
    var d := LoginRequired(sess);
    if d != Allow then Denied(d) else Done(ListSchedule(st, g))
  }

  /**
   * A caller who is not a signed-in admin changes nothing through any admin
   * route: no application is decided and no slot is added, cancelled or restored.
   */
  lemma NonAdminChangesNothing(sess: Session, st: Store, id: nat, note: Option<string>, now: Stamp,
                               g: GroupId, pattern: string, chosen: seq<string>,
                               start: TimeField, end: TimeField, room: Option<string>)
    requires WellFormed(st)
    requires sess.userId.None? || sess.role != Some(AdminRole)
    ensures ApproveRoute(sess, st, id, now).1 == st
    ensures RejectRoute(sess, st, id, note, now).1 == st
    ensures AddSlotsRoute(sess, st, g, pattern, chosen, start, end, room).1 == st
    ensures CancelRoute(sess, st, id).1 == st
    ensures RestoreRoute(sess, st, id).1 == st
  {
  }

  // ---------------------------------------------------------------------------
  // The store invariants

  lemma SubmitKeepsInv(st: Store, uid: nat, chosen: Option<GroupId>, now: Stamp)
    requires Inv(st)
    ensures Inv(Submit(st, uid, chosen, now).1)
  {
  }

  lemma ApproveKeepsInv(st: Store, id: ApplicationId, now: Stamp)
    requires Inv(st)
    ensures Inv(Approve(st, id, now).1)
  {
    var (o, st') := Approve(st, id, now);
    if o in {Accepted, RejectedFull} {
      var a := st'.applications[id];
      assert a.student == st.applications[id].student && a.group == st.applications[id].group;
      forall s, g ensures PairCount(st'.applications, s, g) <= MaxApplications {
        PairCountUpdate(st.applications, id, a, s, g);
        assert st'.applications == st.applications[id := a];
      }
    }
  }

  lemma RejectKeepsInv(st: Store, id: ApplicationId, note: Option<string>, now: Stamp)
    requires Inv(st)
    ensures Inv(Reject(st, id, note, now).1)
  {
    var (o, st') := Reject(st, id, note, now);
    if o == RejectedByAdmin {
      var a := st'.applications[id];
      assert a.student == st.applications[id].student && a.group == st.applications[id].group;
      forall s, g ensures PairCount(st'.applications, s, g) <= MaxApplications {
        PairCountUpdate(st.applications, id, a, s, g);
        assert st'.applications == st.applications[id := a];
      }
    }
  }

  lemma AddSlotsKeepsInv(st: Store, g: GroupId, pattern: string, chosen: seq<string>,
                         start: TimeField, end: TimeField, room: Option<string>)
    requires Inv(st)
    ensures Inv(AddSlots(st, g, pattern, chosen, start, end, room).1)
  {
  }

  lemma CancelKeepsInv(st: Store, id: SlotId)
    requires Inv(st)
    ensures Inv(Cancel(st, id).1)
  {
  }

  /** Restore is the one route that can break the invariants: the duplicate-day example shows it. */
  lemma RestoreCanBreakInv()
    ensures exists st: Store, id: SlotId :: Inv(st) && !Inv(Restore(st, id).1)
  {
    var st := Store([], [Group(15, GroupActive)], [],
                    [Slot(0, Monday, 540, 630, None, Cancelled), Slot(0, Monday, 600, 690, None, Active)]);
    RestoreMayDuplicate();
    assert StudentsIn(st.students, 0) == 0;
    assert forall s, g :: PairCount(st.applications, s, g) == 0;
    assert Inv(st) && !Inv(Restore(st, 0).1);
  }
}

=== FILE: schedule.dfy ===
/**
 * The timetable generator: adding weekly slots for a group from a day pattern
 * (`jadval_add`, POST), cancelling and restoring a slot (`jadval_delete`,
 * `jadval_restore`) and listing a group's active slots in weekday order
 * (`dars_jadvali`).
 */
module Schedule {
  import opened Wrappers
  import opened Store

  const Monday: string := "Dushanba"
  const Tuesday: string := "Seshanba"
  const Wednesday: string := "Chorshanba"
  const Thursday: string := "Payshanba"
  const Friday: string := "Juma"
  const Saturday: string := "Shanba"
  const Sunday: string := "Yakshanba"

  /** The week in its canonical order, Monday first. */
  const Week: seq<string> := [Monday, Tuesday, Wednesday, Thursday, Friday, Saturday, Sunday]
  /** The days pattern 'juft' ("even") selects. */
  const EvenDays: seq<string> := [Monday, Wednesday, Friday, Sunday]
  /** The days pattern 'toq' ("odd") selects. */
  const OddDays: seq<string> := [Tuesday, Thursday, Saturday]

  const AllPattern: string := "barcha"
  const EvenPattern: string := "juft"
  const OddPattern: string := "toq"
  const PickPattern: string := "tanlash"

  /**
   * The listing's sort key (`kunlar_tartibi.get(kun, 8)`): a weekday's position
   * in the week counting from 1, and 8 for any other name.
   */
  function DayRank(d: string): (k: nat)
    ensures 1 <= k <= 8
    ensures k <= 7 <==> d in Week
    ensures k <= 7 ==> Week[k - 1] == d
  {
    if d == Monday then 1
    else if d == Tuesday then 2
    else if d == Wednesday then 3
    else if d == Thursday then 4
    else if d == Friday then 5
    else if d == Saturday then 6
    else if d == Sunday then 7
    else 8
  }

  /** A time field of the form: empty, not of the shape `HH:MM`, or a time of day. */
  datatype TimeField = Blank | Malformed | At(minute: Minute)

  datatype AddOutcome =
    | Added(count: nat)     // the number of slots actually created
    | GroupNotFound
    | MissingField          // pattern, start or end is empty
    | NoDaySelected         // explicit pattern with no day ticked
    | BadTimeFormat
    | EndNotAfterStart

  /**
   * The days a pattern stands for: the whole week, the even or the odd days, and
   * for any other pattern name the days the caller ticked.
   */
  function ExpandDays(pattern: string, chosen: seq<string>): (days: seq<string>)
    ensures pattern == AllPattern ==> days == [Monday, Tuesday, Wednesday, Thursday, Friday, Saturday, Sunday]
    ensures pattern == EvenPattern ==> days == [Monday, Wednesday, Friday, Sunday]
    ensures pattern == OddPattern ==> days == [Tuesday, Thursday, Saturday]
    ensures pattern !in {AllPattern, EvenPattern, OddPattern} ==> days == chosen
    ensures pattern in {AllPattern, EvenPattern, OddPattern} ==> forall d :: d in days ==> d in Week
  {
    if pattern == AllPattern then Week
    else if pattern == EvenPattern then EvenDays
    else if pattern == OddPattern then OddDays
    else chosen
  }

  /** A fresh active slot for group `g` on day `d`. */
  function NewSlot(g: GroupId, d: string, start: Minute, end: Minute, room: Option<string>): Slot {
    Slot(g, d, start, end, room, Active)
  }

  /** Appending a slot adds its own (group, day) to the active ones and no other. */
  lemma HasActiveAppend(slots: seq<Slot>, x: Slot, g: GroupId, d: string)
    ensures HasActive(slots + [x], g, d)
        <==> HasActive(slots, g, d) || (x.status == Active && x.group == g && x.day == d)
  {
    if HasActive(slots, g, d) {
      var i :| 0 <= i < |slots| && slots[i].status == Active && slots[i].group == g && slots[i].day == d;
      assert (slots + [x])[i] == slots[i];
    }
    if x.status == Active && x.group == g && x.day == d {
      assert (slots + [x])[|slots|] == x;
    }
  }

  /** Extending the slot list keeps every active (group, day) active. */
  lemma HasActiveExtends(slots: seq<Slot>, more: seq<Slot>)
    requires |slots| <= |more| && more[..|slots|] == slots
    ensures forall g, d :: HasActive(slots, g, d) ==> HasActive(more, g, d)
  {
  }

  /** Appending an active slot whose (group, day) has none keeps one active slot per day. */
  lemma OneActiveAppend(slots: seq<Slot>, x: Slot)
    requires !HasActive(slots, x.group, x.day)
    ensures OneActivePerDay(slots) ==> OneActivePerDay(slots + [x])
  {
  }

  /**
   * The day loop of `jadval_add`: walks the days in order and creates an active
   * slot for each day on which group `g` has no active slot yet, counting the
   * slots created. A slot made earlier in the walk counts as existing for the
   * later days, so a day named twice gets one slot.
   */
  function CreateSlots(slots: seq<Slot>, g: GroupId, days: seq<string>, start: Minute, end: Minute,
                       room: Option<string>): (r: (seq<Slot>, nat))
    ensures |r.0| == |slots| + r.1 && r.0[..|slots|] == slots
    ensures forall i :: |slots| <= i < |r.0| ==>
      && r.0[i] == NewSlot(g, r.0[i].day, start, end, room)
      && r.0[i].day in days
      && !HasActive(slots, g, r.0[i].day)
    ensures forall d :: d in days ==> HasActive(r.0, g, d)
    ensures OneActivePerDay(slots) ==> OneActivePerDay(r.0)
    decreases |days|
  {
    if days == [] then (slots, 0)
    else if HasActive(slots, g, days[0]) then
      var r := CreateSlots(slots, g, days[1..], start, end, room);
      HasActiveExtends(slots, r.0);
      r
    else
      var x := NewSlot(g, days[0], start, end, room);
      var r := CreateSlots(slots + [x], g, days[1..], start, end, room);
      assert r.0[..|slots|] == (slots + [x])[..|slots|];
      assert r.0[|slots|] == x;
      HasActiveExtends(slots, slots + [x]);
      HasActiveAppend(slots, x, g, days[0]);
      HasActiveExtends(slots + [x], r.0);
      OneActiveAppend(slots, x);
      (r.0, r.1 + 1)
  }

  /** The distinct days of `days` on which group `g` has no active slot. */
  function NewDays(slots: seq<Slot>, g: GroupId, days: seq<string>): set<string> {
    set d | d in days && !HasActive(slots, g, d)
  }

  /** The count `jadval_add` reports is the number of distinct days that had no active slot. */
  lemma {:induction false} CreateSlotsCount(slots: seq<Slot>, g: GroupId, days: seq<string>, start: Minute,
                                            end: Minute, room: Option<string>)
    ensures CreateSlots(slots, g, days, start, end, room).1 == |NewDays(slots, g, days)|
    decreases |days|
  {
    if days == [] {
      assert NewDays(slots, g, days) == {};
    } else {
      var d, rest := days[0], days[1..];
      if HasActive(slots, g, d) {
        CreateSlotsCount(slots, g, rest, start, end, room);
        assert NewDays(slots, g, days) == NewDays(slots, g, rest) by {
          forall e ensures e in NewDays(slots, g, days) <==> e in NewDays(slots, g, rest) {
            assert e in days <==> e == d || e in rest;
          }
        }
      } else {
        var x := NewSlot(g, d, start, end, room);
        var later := NewDays(slots + [x], g, rest);
        CreateSlotsCount(slots + [x], g, rest, start, end, room);
        assert NewDays(slots, g, days) == {d} + later by {
          forall e ensures e in NewDays(slots, g, days) <==> e == d || e in later {
            assert e in days <==> e == d || e in rest;
            HasActiveAppend(slots, x, g, e);
          }
        }
        assert d !in later by {
          HasActiveAppend(slots, x, g, d);
        }
      }
    }
  }

  /**
   * The POST branch of `jadval_add`. The checks run in the source's order: the
   * group must exist, the pattern and both times must be filled in, an explicit
   * pattern needs a ticked day, both times must parse, and the start must come
   * before the end. Only then are the slots created.
   */
  function AddSlots(st: Store, g: GroupId, pattern: string, chosen: seq<string>,
                    start: TimeField, end: TimeField, room: Option<string>): (r: (AddOutcome, Store))
    ensures r.1.students == st.students && r.1.groups == st.groups && r.1.applications == st.applications
    ensures r.0.Added? <==>
      && g < |st.groups|
      && pattern != [] && start.At? && end.At?
      && !(pattern == PickPattern && chosen == [])
      && start.minute < end.minute
    ensures !r.0.Added? ==> r.1 == st
    ensures g >= |st.groups| ==> r.0 == GroupNotFound
    ensures g < |st.groups| && (pattern == [] || start.Blank? || end.Blank?) ==> r.0 == MissingField
    ensures g < |st.groups| && pattern != [] && !start.Blank? && !end.Blank? ==>
      && (pattern == PickPattern && chosen == [] ==> r.0 == NoDaySelected)
      && (!(pattern == PickPattern && chosen == []) && (start.Malformed? || end.Malformed?) ==> r.0 == BadTimeFormat)
      && ((start.At? && end.At? && !(pattern == PickPattern && chosen == []) && start.minute >= end.minute)
          ==> r.0 == EndNotAfterStart)
    ensures r.0.Added? ==>
      && |r.1.slots| == |st.slots| + r.0.count
      && r.1.slots[..|st.slots|] == st.slots
      && r.0.count == |NewDays(st.slots, g, ExpandDays(pattern, chosen))|
      && (forall d :: d in ExpandDays(pattern, chosen) ==> HasActive(r.1.slots, g, d))
      && (forall i :: |st.slots| <= i < |r.1.slots| ==>
            r.1.slots[i].group == g && r.1.slots[i].status == Active
            && r.1.slots[i].day in ExpandDays(pattern, chosen))
      && (forall i :: |st.slots| <= i < |r.1.slots| ==>
            && r.1.slots[i] == NewSlot(g, r.1.slots[i].day, start.minute, end.minute, room)
            && r.1.slots[i].start < r.1.slots[i].end)
    ensures OneActivePerDay(st.slots) ==> OneActivePerDay(r.1.slots)
  {
    if g >= |st.groups| then (GroupNotFound, st)
    else if pattern == [] || start.Blank? || end.Blank? then (MissingField, st)
    else if pattern == PickPattern && chosen == [] then (NoDaySelected, st)
    else if start.Malformed? || end.Malformed? then (BadTimeFormat, st)
    else if start.minute >= end.minute then (EndNotAfterStart, st)
    else
      var days := ExpandDays(pattern, chosen);
      var (slots', n) := CreateSlots(st.slots, g, days, start.minute, end.minute, room);
      CreateSlotsCount(st.slots, g, days, start.minute, end.minute, room);
      (Added(n), st.(slots := slots'))
  }

  /** `jadval_delete`: marks a slot cancelled and answers its group; an unknown id is not found. */
  function Cancel(st: Store, id: SlotId): (r: (Option<GroupId>, Store))
    ensures r.0.Some? <==> id < |st.slots|
    ensures r.0.None? ==> r.1 == st
    ensures r.1.students == st.students && r.1.groups == st.groups && r.1.applications == st.applications
    ensures r.0.Some? ==>
      && r.0.value == st.slots[id].group
      && r.1.slots == st.slots[id := st.slots[id].(status := Cancelled)]
    ensures OneActivePerDay(st.slots) ==> OneActivePerDay(r.1.slots)
  {
    if id >= |st.slots| then (None, st)
    else (Some(st.slots[id].group), st.(slots := st.slots[id := st.slots[id].(status := Cancelled)]))
  }

  /**
   * `jadval_restore`: marks a slot active again and answers its group, without
   * checking whether its group already has another active slot on that day.
   */
  function Restore(st: Store, id: SlotId): (r: (Option<GroupId>, Store))
    ensures r.0.Some? <==> id < |st.slots|
    ensures r.0.None? ==> r.1 == st
    ensures r.1.students == st.students && r.1.groups == st.groups && r.1.applications == st.applications
    ensures r.0.Some? ==>
      && r.0.value == st.slots[id].group
      && r.1.slots == st.slots[id := st.slots[id].(status := Active)]
  {
    if id >= |st.slots| then (None, st)
    else (Some(st.slots[id].group), st.(slots := st.slots[id := st.slots[id].(status := Active)]))
  }

  // ---------------------------------------------------------------------------
  // Listing

  /** A listed slot together with its id. */
  datatype Row = Row(id: SlotId, slot: Slot)

  function Key(r: Row): nat {
    DayRank(r.slot.day)
  }

  predicate SortedByDay(rows: seq<Row>) {
    forall i, j :: 0 <= i < j < |rows| ==> Key(rows[i]) <= Key(rows[j])
  }

  /** The rows whose weekday rank is `k`, in their order in `rows`. */
  function WithRank(rows: seq<Row>, k: nat): seq<Row> {
    if rows == [] then []
    else WithRank(rows[..|rows| - 1], k) + (if Key(rows[|rows| - 1]) == k then [rows[|rows| - 1]] else [])
  }

  /** The active slots of group `g`, in creation order (`filter_by(guruh_id=g, holat='faol')`). */
  function ActiveRows(slots: seq<Slot>, g: GroupId): (rows: seq<Row>)
    ensures forall x :: x in rows <==>
      x.id < |slots| && slots[x.id] == x.slot && x.slot.status == Active && x.slot.group == g
    ensures forall i, j :: 0 <= i < j < |rows| ==> rows[i].id < rows[j].id
  {
    if slots == [] then []
    else
      var n := |slots| - 1;
      var prefix := ActiveRows(slots[..n], g);
      var last := if slots[n].status == Active && slots[n].group == g then [Row(n, slots[n])] else [];
      assert forall x :: x in prefix ==> x.id < n && slots[x.id] == slots[..n][x.id];
      assert forall x :: x in prefix + last <==> x in prefix || x in last;
      prefix + last
  }

  /** No row ranks after `b`. */
  predicate AllAtMost(rows: seq<Row>, b: nat) {
    forall i :: 0 <= i < |rows| ==> Key(rows[i]) <= b
  }

  lemma SortedAppend(rows: seq<Row>, y: Row)
    requires SortedByDay(rows) && AllAtMost(rows, Key(y))
    ensures SortedByDay(rows + [y])
  {
  }

  lemma WithRankAppend(rows: seq<Row>, y: Row)
    ensures forall k :: WithRank(rows + [y], k) == WithRank(rows, k) + (if Key(y) == k then [y] else [])
  {
  }

  /**
   * Inserts `x` into rows sorted by weekday rank, after every row of the same
   * or a lower rank.
   */
  function Insert(rows: seq<Row>, x: Row): (r: seq<Row>)
    ensures multiset(r) == multiset(rows) + multiset{x}
  {
    if rows == [] || Key(rows[|rows| - 1]) <= Key(x) then rows + [x]
    else
      var n := |rows| - 1;
      assert rows == rows[..n] + [rows[n]];
      Insert(rows[..n], x) + [rows[n]]
  }

  /** Insertion keeps the rows sorted and puts no row above the larger of the old bound and `x`. */
  lemma {:induction false} InsertSorted(rows: seq<Row>, x: Row)
    requires SortedByDay(rows)
    ensures SortedByDay(Insert(rows, x))
    ensures forall b :: AllAtMost(rows, b) && Key(x) <= b ==> AllAtMost(Insert(rows, x), b)
  {
    if rows == [] || Key(rows[|rows| - 1]) <= Key(x) {
      assert AllAtMost(rows, Key(x));
      SortedAppend(rows, x);
    } else {
      var n := |rows| - 1;
      var last := rows[n];
      InsertSorted(rows[..n], x);
      assert AllAtMost(rows[..n], Key(last));
      SortedAppend(Insert(rows[..n], x), last);
    }
  }

  /** Insertion into sorted rows puts `x` after every row of its own rank. */
  lemma {:induction false} InsertStable(rows: seq<Row>, x: Row, k: nat)
    requires SortedByDay(rows)
    ensures WithRank(Insert(rows, x), k) == WithRank(rows, k) + (if Key(x) == k then [x] else [])
  {
    if rows == [] || Key(rows[|rows| - 1]) <= Key(x) {
      WithRankAppend(rows, x);
    } else {
      var n := |rows| - 1;
      var last := rows[n];
      assert rows == rows[..n] + [last];
      InsertStable(rows[..n], x, k);
      WithRankAppend(Insert(rows[..n], x), last);
      WithRankAppend(rows[..n], last);
    }
  }

  /**
   * Python's `sorted` by weekday rank, as an insertion sort: the result is
   * ordered by rank, is a permutation of its input, and lists the rows of each
   * rank in their input order.
   */
  function SortByDay(rows: seq<Row>): (r: seq<Row>)
    ensures SortedByDay(r)
    ensures multiset(r) == multiset(rows)
    ensures forall k :: WithRank(r, k) == WithRank(rows, k)
  {
    if rows == [] then []
    else
      var n := |rows| - 1;
      var sorted := SortByDay(rows[..n]);
      assert rows == rows[..n] + [rows[n]];
      InsertSorted(sorted, rows[n]);
      assert forall k :: WithRank(Insert(sorted, rows[n]), k) == WithRank(rows, k) by {
        forall k ensures WithRank(Insert(sorted, rows[n]), k) == WithRank(rows, k) {
          InsertStable(sorted, rows[n], k);
        }
      }
      Insert(sorted, rows[n])
  }

  /**
   * `dars_jadvali`: the active slots of group `g` sorted by weekday, or None
   * when there is no such group.
   */
  function ListSchedule(st: Store, g: GroupId): (r: Option<seq<Row>>)
    ensures r.Some? <==> g < |st.groups|
    ensures r.Some? ==> SortedByDay(r.value)
    ensures r.Some? ==> forall x :: x in r.value <==>
      x.id < |st.slots| && st.slots[x.id] == x.slot && x.slot.status == Active && x.slot.group == g
    ensures r.Some? ==> forall k :: WithRank(r.value, k) == WithRank(ActiveRows(st.slots, g), k)
  {
    if g >= |st.groups| then None
    else
      var rows := ActiveRows(st.slots, g);
      var sorted := SortByDay(rows);
      assert forall x :: x in sorted <==> x in multiset(sorted);
      assert forall x :: x in rows <==> x in multiset(rows);
      Some(sorted)
  }

  // ---------------------------------------------------------------------------
  // Properties of the generator

  /** A sequence without repeated elements has as many distinct elements as it is long. */
  lemma {:induction false} DistinctCardinality(s: seq<string>)
    requires forall i, j :: 0 <= i < j < |s| ==> s[i] != s[j]
    ensures |(set d | d in s)| == |s|
  {
    if s != [] {
      var n := |s| - 1;
      DistinctCardinality(s[..n]);
      assert (set d | d in s) == (set d | d in s[..n]) + {s[n]};
      assert s[n] !in (set d | d in s[..n]);
    }
  }

  /** The seven weekday names are distinct, and 'juft' and 'toq' split the week between them. */
  lemma PatternsPartitionWeek()
    ensures |(set d | d in Week)| == 7
    ensures (set d | d in EvenDays + OddDays) == (set d | d in Week)
    ensures forall d :: d in EvenDays ==> d !in OddDays
  {
    // Names with different first letters differ; the two 'S' names differ in length.
    assert forall i :: 0 <= i < 7 ==> |Week[i]| > 0;
    assert forall i, j :: 0 <= i < j < 7 && Week[i][0] == Week[j][0] ==> |Week[i]| != |Week[j]|;
    DistinctCardinality(Week);
  }

  /**
   * Pattern 'barcha' on a group with no active slot on any weekday creates one
   * slot per weekday, seven in all; run again, it creates none and changes nothing.
   */
  lemma AddAllTwice(st: Store, g: GroupId, chosen: seq<string>, start: TimeField, end: TimeField,
                    room: Option<string>)
    requires g < |st.groups|
    requires start.At? && end.At? && start.minute < end.minute
    requires forall d :: d in Week ==> !HasActive(st.slots, g, d)
    ensures var (o1, st1) := AddSlots(st, g, AllPattern, chosen, start, end, room);
      var (o2, st2) := AddSlots(st1, g, AllPattern, chosen, start, end, room);
      o1 == Added(7) && o2 == Added(0) && st2 == st1
  {
    PatternsPartitionWeek();
    assert NewDays(st.slots, g, Week) == set d | d in Week;
    var st1 := AddSlots(st, g, AllPattern, chosen, start, end, room).1;
    assert NewDays(st1.slots, g, Week) == {};
    var st2 := AddSlots(st1, g, AllPattern, chosen, start, end, room).1;
    assert st2.slots == st1.slots;
  }

  /** Pattern 'toq' only ever creates Tuesday, Thursday and Saturday slots, 'juft' only the other four days. */
  lemma OddAndEvenDays(st: Store, g: GroupId, chosen: seq<string>, start: TimeField, end: TimeField,
                       room: Option<string>)
    ensures var (o, st') := AddSlots(st, g, OddPattern, chosen, start, end, room);
      forall i :: |st.slots| <= i < |st'.slots| ==> st'.slots[i].day in {Tuesday, Thursday, Saturday}
    ensures var (o, st') := AddSlots(st, g, EvenPattern, chosen, start, end, room);
      forall i :: |st.slots| <= i < |st'.slots| ==> st'.slots[i].day in {Monday, Wednesday, Friday, Sunday}
  {
  }

  /**
   * On a group with no active weekday slot, 'toq' creates one slot on each of
   * Tuesday, Thursday and Saturday, three in all.
   */
  lemma OddPatternCoversOddDays(st: Store, g: GroupId, chosen: seq<string>, start: TimeField, end: TimeField,
                                room: Option<string>)
    requires g < |st.groups|
    requires start.At? && end.At? && start.minute < end.minute
    requires forall d :: d in Week ==> !HasActive(st.slots, g, d)
    ensures var (o, st') := AddSlots(st, g, OddPattern, chosen, start, end, room);
      o == Added(3) && forall d :: d in OddDays ==> HasActive(st'.slots, g, d)
  {
    assert forall d :: d in OddDays ==> d in Week;
    assert NewDays(st.slots, g, OddDays) == set d | d in OddDays;
    assert |Tuesday| != |Saturday| && Tuesday[0] != Thursday[0] && Thursday[0] != Saturday[0];
    DistinctCardinality(OddDays);
  }

  /**
   * On a group with no active weekday slot, 'juft' creates one slot on each of
   * Monday, Wednesday, Friday and Sunday, four in all.
   */
  lemma EvenPatternCoversEvenDays(st: Store, g: GroupId, chosen: seq<string>, start: TimeField, end: TimeField,
                                  room: Option<string>)
    requires g < |st.groups|
    requires start.At? && end.At? && start.minute < end.minute
    requires forall d :: d in Week ==> !HasActive(st.slots, g, d)
    ensures var (o, st') := AddSlots(st, g, EvenPattern, chosen, start, end, room);
      o == Added(4) && forall d :: d in EvenDays ==> HasActive(st'.slots, g, d)
  {
    assert forall d :: d in EvenDays ==> d in Week;
    assert NewDays(st.slots, g, EvenDays) == set d | d in EvenDays;
    assert forall i, j :: 0 <= i < j < 4 ==> EvenDays[i][0] != EvenDays[j][0];
    DistinctCardinality(EvenDays);
  }

  /** An explicit pattern with no day ticked fails and changes nothing. */
  lemma EmptyPickFails(st: Store, g: GroupId, start: TimeField, end: TimeField, room: Option<string>)
    requires g < |st.groups| && !start.Blank? && !end.Blank?
    ensures AddSlots(st, g, PickPattern, [], start, end, room) == (NoDaySelected, st)
  {
  }

  /** Cancelling a slot takes it off its group's listing; restoring it puts it back. */
  lemma CancelHidesRestoreShows(st: Store, id: SlotId)
    requires id < |st.slots| && st.slots[id].group < |st.groups|
    ensures var g := st.slots[id].group;
      var st1 := Cancel(st, id).1;
      var st2 := Restore(st1, id).1;
      && (forall x :: x in ListSchedule(st1, g).value ==> x.id != id)
      && Row(id, st.slots[id].(status := Active)) in ListSchedule(st2, g).value
  {
    var g := st.slots[id].group;
    var st1 := Cancel(st, id).1;
    assert st1.slots[id].status == Cancelled;
    var st2 := Restore(st1, id).1;
    assert st2.slots[id] == st.slots[id].(status := Active);
  }

  /**
   * Restoring does not re-check the one-active-slot-per-day rule: a group with
   * a cancelled Monday slot and a later active Monday slot ends up with two
   * active Monday slots once the first is restored.
   */
  lemma RestoreMayDuplicate()
    ensures var st := Store([], [Group(15, GroupActive)], [],
                            [Slot(0, Monday, 540, 630, None, Cancelled), Slot(0, Monday, 600, 690, None, Active)]);
      OneActivePerDay(st.slots) && !OneActivePerDay(Restore(st, 0).1.slots)
  {
    var st := Store([], [Group(15, GroupActive)], [],
                    [Slot(0, Monday, 540, 630, None, Cancelled), Slot(0, Monday, 600, 690, None, Active)]);
    var s' := Restore(st, 0).1.slots;
    assert s'[0].status == Active && s'[1].status == Active && s'[0].day == s'[1].day;
  }
}

=== FILE: store.dfy ===
/**
 * The entity store the enrollment workflow and the schedule generator act on:
 * students (`Talaba`), groups (`Guruh`), group applications (`GuruhAriza`) and
 * timetable slots (`DarsJadvali`). A row's id is its position in its sequence;
 * rows are never removed by the operations modelled here.
 */
module Store {
  import opened Wrappers

  type StudentId = nat
  type GroupId = nat
  type ApplicationId = nat
  type SlotId = nat

  /** An opaque timestamp supplied by the caller (the source's `datetime.utcnow()`). */
  type Stamp = nat

  /** A time of day in minutes after midnight, the range `%H:%M` can denote. */
  type Minute = m: nat | m < 1440

  /** A student profile: the owning user and the optional current group (`guruh_id`). */
  datatype Student = Student(userId: nat, group: Option<GroupId>)

  /** `holat` of a group: 'faol', 'tugallangan', 'rejalashtirilgan'. */
  datatype GroupStatus = GroupActive | GroupCompleted | GroupPlanned

  /** A group with its capacity (`max_talabalar`) and status. */
  datatype Group = Group(capacity: int, status: GroupStatus)

  /** `holat` of an application: 'kutilmoqda', 'qabul_qilindi', 'qabul_qilinmadi'. */
  datatype AppStatus = Pending | Approved | Rejected

  /** An application of one student to one group, with its decision stamp and note (`izoh`). */
  datatype Application = Application(
    student: StudentId,
    group: GroupId,
    status: AppStatus,
    submittedAt: Stamp,
    decidedAt: Option<Stamp>,
    note: Option<string>)

  /** `holat` of a slot: 'faol' or 'bekor_qilindi'. */
  datatype SlotStatus = Active | Cancelled

  /** One weekly lesson of a group on a named weekday (`kun`). */
  datatype Slot = Slot(
    group: GroupId,
    day: string,
    start: Minute,
    end: Minute,
    room: Option<string>,
    status: SlotStatus)

  datatype Store = Store(
    students: seq<Student>,
    groups: seq<Group>,
    applications: seq<Application>,
    slots: seq<Slot>)

  /** Every application names an existing student and an existing group (the foreign keys). */
  predicate WellFormed(st: Store) {
    forall i :: 0 <= i < |st.applications| ==>
      st.applications[i].student < |st.students| && st.applications[i].group < |st.groups|
  }

  /** The number of students whose current group is `g` (`Talaba.query.filter_by(guruh_id=g).count()`). */
  function StudentsIn(students: seq<Student>, g: GroupId): (n: nat)
    ensures n <= |students|
    ensures n == 0 <==> forall i :: 0 <= i < |students| ==> students[i].group != Some(g)
  {
    if students == [] then 0
    else (if students[0].group == Some(g) then 1 else 0) + StudentsIn(students[1..], g)
  }

  /** The ids of the applications of student `s` to group `g`. */
  function PairIds(apps: seq<Application>, s: StudentId, g: GroupId): set<ApplicationId> {
    set i | 0 <= i < |apps| && apps[i].student == s && apps[i].group == g
  }

  /**
   * The number of applications of student `s` to group `g`, whatever their
   * status (`GuruhAriza.query.filter_by(talaba_id=s, guruh_id=g).count()`).
   */
  function PairCount(apps: seq<Application>, s: StudentId, g: GroupId): (n: nat)
    ensures n == |PairIds(apps, s, g)|
    ensures n <= |apps|
  {
    if apps == [] then 0
    else
      var k := |apps| - 1;
      var mine := apps[k].student == s && apps[k].group == g;
      assert PairIds(apps, s, g) == PairIds(apps[..k], s, g) + (if mine then {k} else {});
      PairCount(apps[..k], s, g) + (if mine then 1 else 0)
  }

  /**
   * Some application of student `s` to group `g` has been approved (the
   * `filter_by(..., holat='qabul_qilindi').first()` test); such a pair has at
   * least one application on record.
   */
  function HasApproved(apps: seq<Application>, s: StudentId, g: GroupId): (b: bool)
    ensures b ==> PairCount(apps, s, g) >= 1
  {
    if exists i :: 0 <= i < |apps| && apps[i].student == s && apps[i].group == g && apps[i].status == Approved then
      var i :| 0 <= i < |apps| && apps[i].student == s && apps[i].group == g && apps[i].status == Approved;
      assert i in PairIds(apps, s, g);
      true
    else false
  }

  /** No group holds more students than its capacity. */
  predicate CapacityRespected(st: Store) {
    forall g :: 0 <= g < |st.groups| ==> StudentsIn(st.students, g) <= st.groups[g].capacity
  }

  /** The per-(student, group) cap on applications. */
  const MaxApplications: nat := 5

  /** No (student, group) pair has more than `MaxApplications` applications. */
  ghost predicate ApplicationCapRespected(st: Store) {
    forall s, g :: PairCount(st.applications, s, g) <= MaxApplications
  }

  /** Some active slot of group `g` falls on day `d`. */
  predicate HasActive(slots: seq<Slot>, g: GroupId, d: string) {
    exists i :: 0 <= i < |slots| && slots[i].status == Active && slots[i].group == g && slots[i].day == d
  }

  /** At most one active slot per (group, day). */
  predicate OneActivePerDay(slots: seq<Slot>) {
    forall i, j ::
      (0 <= i < j < |slots| && slots[i].status == Active && slots[j].status == Active
       && slots[i].group == slots[j].group) ==> slots[i].day != slots[j].day
  }

  /** The invariants the workflow is meant to keep. */
  ghost predicate Inv(st: Store) {
    && WellFormed(st)
    && CapacityRespected(st)
    && ApplicationCapRespected(st)
    && OneActivePerDay(st.slots)
  }

  /**
   * Replacing one student changes each group's head-count only by the student
   * leaving its old group and joining its new one.
   */
  lemma {:induction false} StudentsInUpdate(students: seq<Student>, i: nat, s: Student, g: GroupId)
    requires i < |students|
    ensures StudentsIn(students[i := s], g)
         == StudentsIn(students, g)
            - (if students[i].group == Some(g) then 1 else 0)
            + (if s.group == Some(g) then 1 else 0)
  {
    if i == 0 {
      assert students[i := s][1..] == students[1..];
    } else {
      assert students[i := s][1..] == students[1..][i - 1 := s];
      StudentsInUpdate(students[1..], i - 1, s, g);
    }
  }

  /** Appending an application raises only its own pair's count, by one. */
  lemma PairCountAppend(apps: seq<Application>, a: Application, s: StudentId, g: GroupId)
    ensures PairCount(apps + [a], s, g)
         == PairCount(apps, s, g) + (if a.student == s && a.group == g then 1 else 0)
  {
  }

  /** Rewriting an application without touching its student or group keeps every pair count. */
  lemma {:induction false} PairCountUpdate(apps: seq<Application>, i: nat, a: Application, s: StudentId, g: GroupId)
    requires i < |apps|
    requires a.student == apps[i].student && a.group == apps[i].group
    ensures PairCount(apps[i := a], s, g) == PairCount(apps, s, g)
  {
    if i == |apps| - 1 {
      assert apps[i := a][..|apps| - 1] == apps[..|apps| - 1];
    } else {
      assert apps[i := a][..|apps| - 1] == apps[..|apps| - 1][i := a];
      PairCountUpdate(apps[..|apps| - 1], i, a, s, g);
    }
  }
}

=== FILE: wrappers.dfy ===
/** The optional value used for nullable columns and absent form fields. */
module Wrappers {

  datatype Option<+T> = None | Some(value: T)
}
